=== FILE: README.md ===
# pykit collections and decorators, modelled in Dafny

This project models the pure-logic core of the `pykit` helper library. It has
two parts.

The first is the collection transforms of `pykit/collections.py`:

- `flatten` flattens nested lists depth first; strings and byte strings are atoms.
- `unique` removes duplicates and keeps the order of first occurrence.
- `chunk` splits a sequence into slices of a fixed size.
- `get_nested` follows a dotted key path through nested dictionaries.
- `invert_dict` swaps keys and values, in one of two result shapes.

The second is the two resilience decorators of `pykit/decorators.py`:

- `memoize` is a per-function cache keyed by `(args, frozenset(kwargs.items()))`.
- `retry` re-invokes a failing operation with exponential backoff.

Each Python function is a pure Dafny function over immutable data. Python
values become datatypes:

- a nested list is `Flattening.Item`;
- JSON-like nested data is `NestedLookup.Value`;
- a dictionary handed to `invert_dict` is an association list in insertion order;
- a raised exception is the `Err` case of `Wrappers.Result`.

The decorators become state-passing functions:

- `memoize` takes the cache and the call's key and returns the new cache, the
  outcome, and whether the wrapped function was invoked.
- `retry` takes the operation as `op: nat -> Result`, where `op(n)` is what
  invocation number `n` (from 0) returns or raises. It returns the outcome, the
  list of delays slept, and the number of invocations.

One module per operation: `Flattening` (flatten.dfy), `Dedup` (unique.dfy),
`Chunking` (chunk.dfy), `NestedLookup` (get_nested.dfy), `Inversion`
(invert_dict.dfy), `Memoization` (memoize.dfy), `Retrying` (retry.dfy), plus
`Wrappers` (wrappers.dfy) for `Result`.

`retry` accepts any `tries`, and `tries <= 1` makes exactly one attempt
(`Retrying.Attempts`).

Several assertions in `tests/test_collections.py` contradict the code and were
not used as properties: lines 9-11, lines 16-17 (for line 16 the code gives
`[1, 2, 3, 4]`), and lines 43-44. The model's examples use the values the code computes.

## Model

| member | source | states |
|---|---|---|
| `Flattening.Flatten` | pykit-project/pykit/collections.py:6-15 | no element of the output is a list that would be descended into |
| `Flattening.FlattenIterative` | pykit-project/pykit/collections.py:8-15 | consuming the generator one item at a time (a worklist whose front is yielded or replaced by its children) yields exactly the depth-first, left-to-right list `Flatten` gives |
| `Flattening.FlattenAppend` | pykit-project/pykit/collections.py:9-13 | flattening distributes over concatenation of the outer list |
| `Flattening.FlattenOfFlat` | pykit-project/pykit/collections.py:9-13 | a list with no nested lists comes back unchanged |
| `Flattening.FlattenIdempotent` | pykit-project/pykit/collections.py:6-15 | flattening a flattened list changes nothing |
| `Flattening.FlattenMembership` | pykit-project/pykit/collections.py:9-13 | a value is in the output exactly when it is not a list and occurs at some depth of the input |
| `Flattening.StringsAreAtoms` | pykit-project/pykit/collections.py:10 | a `str` or `bytes` value is in the output exactly when it occurs at some depth of the input: it is yielded whole, and no other string appears |
| `Flattening.FlattenExamples` | pykit-project/tests/test_collections.py:12-13 | `[3, 1, 2]` flattens to itself and `['a', ['b', 'c']]` to `['a', 'b', 'c']` |
| `Dedup.Unique` | pykit-project/pykit/collections.py:18-20 | the output has no duplicates and holds exactly the input's elements |
| `Dedup.UniqueOrder` | pykit-project/pykit/collections.py:20 | the output lists the elements in the order of their first occurrence in the input |
| `Dedup.UniqueCharacterized` | pykit-project/pykit/collections.py:20 | any list that has no duplicates, holds exactly the input's elements and follows first-occurrence order equals `Unique(xs)`, so they determine the result |
| `Dedup.UniqueOfDistinct` | pykit-project/pykit/collections.py:20 | a list whose elements are already distinct comes back unchanged |
| `Dedup.UniqueIdempotent` | pykit-project/pykit/collections.py:20 | de-duplicating twice is de-duplicating once |
| `Dedup.UniqueExamples` | pykit-project/tests/test_collections.py:18-19 | `['a', 'b', 'a']` gives `['a', 'b']` and `[3, 1, 2]` gives itself |
| `Chunking.Chunk` | pykit-project/pykit/collections.py:22-27 | error exactly when `size <= 0`, with the ValueError message; otherwise the slices concatenate to the input; every slice but the last has length `size`; the last is non-empty and at most `size`; empty input gives no slices; the count `n` is the least with `n * size >= len` |
| `Chunking.SlicesFrom` | pykit-project/pykit/collections.py:26-27 | the range from a start index yields no slice exactly when the start is at or past the end |
| `Chunking.SlicesShape` | pykit-project/pykit/collections.py:26-27 | the slices taken from a start index concatenate to the input's suffix; there are none exactly when the start is the end; all but the last have length `size`; the last has between 1 and `size` elements |
| `Chunking.SlicesCount` | pykit-project/pykit/collections.py:26-27 | the number of slices from a start index is the least `n` with `start + n * size >= len(items)` |
| `Chunking.SliceAt` | pykit-project/pykit/collections.py:26-27 | slice `k` is `items[i:i+size]` for the `k`-th value `i` of the range, clamped at the length |
| `Chunking.ChunkAt` | pykit-project/pykit/collections.py:26-27 | slice `k` of a split is `items[k*size:(k+1)*size]` |
| `Chunking.ChunkCount` | pykit-project/pykit/collections.py:26 | the number of slices is `(len + size - 1) // size`, the ceiling of `len / size` |
| `Chunking.ChunkExamples` | pykit-project/tests/test_collections.py:23-26 | `[3, 1, 2, 4, 5]` by 2 gives `[[3, 1], [2, 4], [5]]`; `[3, 1, 2]` by 5 gives one slice; size 0 is a ValueError |
| `NestedLookup.Split` | pykit-project/pykit/collections.py:34 | `str.split('.')` gives at least one piece and no piece contains the separator |
| `NestedLookup.JoinSplit` | pykit-project/pykit/collections.py:34 | joining the pieces of a split with the separator gives back the path |
| `NestedLookup.SplitJoin` | pykit-project/pykit/collections.py:34 | splitting a join of separator-free keys gives back the keys |
| `NestedLookup.Subscript` | pykit-project/pykit/collections.py:36-37 | `d[key]` succeeds exactly when `d` is a dict holding `key`, with that entry; a dict without the key raises KeyError, and any other value raises TypeError |
| `NestedLookup.Walk` | pykit-project/pykit/collections.py:36 | a KeyError raised by the reduction names one of the path's keys |
| `NestedLookup.WalkAppend` | pykit-project/pykit/collections.py:36 | the reduction over a concatenated path is the reduction over the first part, then over the second |
| `NestedLookup.WalkFailsIffBlocked` | pykit-project/pykit/collections.py:35-38 | the reduction raises exactly when some step reaches a non-dict or a dict lacking that key |
| `NestedLookup.GetNested` | pykit-project/pykit/collections.py:33-38 | the result is the default whenever some step of the dotted path is blocked (a missing key or a non-dict); otherwise it is the value the path leads to; no exception escapes |
| `NestedLookup.GetNestedEmpty` | pykit-project/pykit/collections.py:33-38 | an empty dict yields the default for every path |
| `NestedLookup.GetNestedFindsNested` | pykit-project/pykit/collections.py:33-38 | a value stored under dot-free keys `k1 ... kn` is found again by the path `k1.….kn` |
| `NestedLookup.GetNestedFindsCity` | pykit-project/tests/test_collections.py:30 | `'user.address.city'` finds `'Wonderland'` |
| `NestedLookup.GetNestedMissingAge` | pykit-project/tests/test_collections.py:31-32 | `'user.profile.age'` yields whatever default is given |
| `NestedLookup.GetNestedMissingZip` | pykit-project/tests/test_collections.py:33 | `'user.address.zip.code'` yields None, because the `address` dict has no key `zip` |
| `Inversion.SetSizeIffDistinct` | pykit-project/pykit/collections.py:44 | `len(set(values)) == len(values)` holds exactly when no value repeats |
| `Inversion.InvertDict` | pykit-project/pykit/collections.py:42-50 | the result is the swapped shape exactly when the values are distinct |
| `Inversion.SwapAll` | pykit-project/pykit/collections.py:45 | the comprehension's keys are the input's values, and each entry `v: k` is an item `(k, v)` of the input |
| `Inversion.SwapAllComplete` | pykit-project/pykit/collections.py:45 | with distinct values, every item's value maps back to its key |
| `Inversion.SwappedIsInverse` | pykit-project/pykit/collections.py:44-45 | with distinct values, the result's keys are the dict's values and it maps `v` to `k` exactly when the dict maps `k` to `v` |
| `Inversion.GroupStep` | pykit-project/pykit/collections.py:48-49 | one turn of the loop, appending a key to the list of its value, turns the groups of the items seen so far into the groups of those items plus the new one |
| `Inversion.GroupAll` | pykit-project/pykit/collections.py:47-50 | the grouped result's keys are the input's values, and each maps to the keys carrying it, in input order |
| `Inversion.GroupsOfThree` | pykit-project/pykit/collections.py:46-50 | three items whose first and last share a value group as `{x: [a, c], y: [b]}` |
| `Inversion.KeysWithMembership` | pykit-project/pykit/collections.py:48-49 | a key is in the list of `v` exactly when the input has the item `(k, v)` |
| `Inversion.GroupedPartitionsKeys` | pykit-project/pykit/collections.py:46-50 | with a duplicate value, each value maps to its keys in input order; each key sits in exactly the list of its own value; over the distinct values the lengths sum to `len(data)` |
| `Inversion.InvertDistinctExample` | pykit-project/tests/test_collections.py:37-38 | `{'a': 1, 'b': 2}` inverts to `{1: 'a', 2: 'b'}` |
| `Inversion.InvertDuplicateExample` | pykit-project/tests/test_collections.py:40-42 | `{'a': 1, 'b': 2, 'c': 1}` inverts to `{1: ['a', 'c'], 2: ['b']}` |
| `Memoization.MakeKey` | pykit-project/pykit/decorators.py:12 | the key keeps the positional arguments as written and holds exactly the keyword pairs passed |
| `Memoization.SameKeyIff` | pykit-project/pykit/decorators.py:12 | two calls share a key exactly when their positional arguments are equal in order and they pass the same keyword pairs |
| `Memoization.KeyIgnoresKeywordOrder` | pykit-project/pykit/decorators.py:12 | reordering the keyword arguments gives the same key |
| `Memoization.KeyRespectsPositionalOrder` | pykit-project/pykit/decorators.py:12 | swapping two different positional arguments gives a different key |
| `Memoization.Call` | pykit-project/pykit/decorators.py:14-17 | `func` is invoked exactly on a miss; a hit returns the stored value and leaves the cache as it was; a miss returns what `func` returns or raises; existing entries are never changed; the only key ever added is the missed one, and only when `func` returned |
| `Memoization.CallIsTransparent` | pykit-project/pykit/decorators.py:14-17 | from a cache consistent with a deterministic `func`, a call returns or raises exactly what `func` would, and the cache stays consistent |
| `Memoization.InvokedAtMostOnce` | pykit-project/pykit/decorators.py:14-17 | over any sequence of calls, `func` is invoked once for a key that returns and was not cached, and never otherwise |
| `Memoization.FailuresAreRetried` | pykit-project/pykit/decorators.py:14-15 | a key whose call raises is never cached and is invoked again on every call |
| `Memoization.RunOnlyGrows` | pykit-project/pykit/decorators.py:14-15 | entries present before a sequence of calls are still there, unchanged, after it |
| `Memoization.RunIsTransparent` | pykit-project/pykit/decorators.py:14-17 | from a consistent cache, each call in a sequence returns or raises what `func` would |
| `Memoization.DoubleExample` | pykit-project/tests/test_decorators.py:20-29 | the doubler called with 5, 5, 10 returns 10, 10, 20 and is invoked only for 5 and 10 |
| `Retrying.Loop` | pykit-project/pykit/decorators.py:29-38 | from any loop state: stops at the first success or when attempts run out; the last invocation's outcome surfaces; one sleep per failure except the last; sleep `k` is `delay * backoff^k` |
| `Retrying.Retry` | pykit-project/pykit/decorators.py:28-38 | between 1 and `max(tries, 1)` invocations; every invocation but the last failed; the last one's outcome is returned; all attempts are used unless one succeeds; one sleep fewer than invocations; sleep `k` lasts `delay * backoff^k` |
| `Retrying.RetryLoop` | pykit-project/pykit/decorators.py:28-38 | the while loop as written (countdown, return on success, final unguarded call) computes exactly `Retry` |
| `Retrying.AlwaysFailing` | pykit-project/pykit/decorators.py:29-38 | an always-failing operation is invoked `max(tries, 1)` times; the last invocation's exception propagates |
| `Retrying.FirstSuccess` | pykit-project/pykit/decorators.py:29-31 | a first success at invocation `i < max(tries, 1)` is returned after `i + 1` invocations and `i` sleeps |
| `Retrying.SingleTry` | pykit-project/pykit/decorators.py:28-38 | `tries <= 1` means one invocation and no sleep |
| `Retrying.SometimesFailExample` | pykit-project/tests/test_decorators.py:33-43 | failing twice and then succeeding under three tries returns "Success" after three invocations, sleeping `delay` then `delay * 2`, for any delay |
| `Retrying.AlwaysFailExample` | pykit-project/tests/test_decorators.py:44-50 | always failing under three tries makes three invocations and propagates the error, sleeping `delay` then `delay * 2`, for any delay |

## Left out

- `timer` (pykit/decorators.py:44-55) is left out. It only measures wall-clock time with floats and prints.
- `retry`'s `print` and `time.sleep` are left out. Each sleep is recorded as a value in `Run.sleeps`; nothing waits.
- `retry` catches `Exception` but not other `BaseException`s. The model treats every failure as a caught `Err`.
- `retry`'s `delay` and `backoff` are natural numbers, while Python accepts floats (the test suite uses `delay=0.01`). With a negative delay, `time.sleep` would raise; naturals exclude that case.
- `memoize` is modelled for one caller at a time. The check-then-insert race under concurrent callers is not modelled.
- `memoize` can raise TypeError for unhashable arguments. The model's key type has equality instead, so this error path is out.
- `memoize`'s wrapped function receives the key rather than `*args, **kwargs`. The key fixes the positional tuple and the set of keyword pairs, but not the order the keywords were written in.
- `Memoization.CallIsTransparent` and `Memoization.RunIsTransparent`: results are treated as immutable values, and `func` is assumed not to depend on keyword order. In Python a hit returns the cached object itself, so a caller that mutates a returned list changes later hits. A `func` returning `list(kwargs)` answers `f(b=2, a=1)` with `['a', 'b']` once `f(a=1, b=2)` has been cached. `func` is also assumed to give equal results for arguments Python treats as equal: `1`, `1.0` and `True` share one cache key, so with a `func` returning `type(x).__name__`, `f(1.0)` after `f(1)` is a hit that returns `'int'`.
- `Flattening.Flatten`: a cyclic list (`a = [1]; a.append(a)`) or nesting deeper than Python's recursion limit makes the source raise RecursionError. `Item` is a well-founded datatype, so neither case can be represented, and the model returns a list for every input.
- `flatten` descends into any Python iterable: tuples, sets, generators, and dicts, whose keys it yields. The model descends only into lists (`Item.List`).
- `unique`, `invert_dict` and `memoize`'s cache lookup use Python hashing, under which `1 == True == 1.0`. The model uses Dafny equality on the element or argument type.
- `get_nested` data may have dict keys that are not strings. A dotted path only looks up string keys, so `Value.Dict` maps strings only. Exceptions other than KeyError and TypeError would propagate; they cannot arise for the values modelled.
- `chunk` is a generator, so its ValueError is raised on the first iteration, not when `chunk` is called. The model gives the result of consuming the generator to the end.
- `Memoization.Call`: `func` is assumed not to call its own memoized wrapper. A recursive memoized function (a memoized `fib`) fills the cache for inner keys during one outer miss, so one miss can add several keys.
- `Dedup.Unique`: elements are assumed hashable. `dict.fromkeys` raises TypeError for an unhashable element (`unique([[1], [1]])`), and the model gives a result instead.
- `Inversion.InvertDict`: values are assumed hashable. `set(data.values())` raises TypeError for an unhashable value (`invert_dict({'a': [1]})`), and the model gives a result instead.
- `Inversion.SwapAll`: the swapped result is a `map`, so the insertion order of the Python dict is not kept. Its keys would come in the order the values first appear in the input.
- `Inversion.GroupAll`: the grouped result is a `map`, so the order of the dict's keys (values in order of first occurrence) is not kept. `Inversion.GroupedPartitionsKeys` sums the group lengths in that order, `Dedup.Unique(Values(data))`.
- `pykit/io.py` and `pykit/time.py` are not part of this model. Only their tests exist, and they cover file I/O and date handling.
- `setup.py` is packaging only and is left out.

=== FILE: chunk.dfy ===
/** `chunk` (pykit/collections.py): split a sequence into consecutive slices
    of a fixed size; the last slice may be shorter. */
module Chunking {
  import opened Wrappers

  /** The exception `chunk` raises. */
  datatype ChunkError = ValueError(message: string)

  /** Raised, on the first step of the generator, when the size is not positive. */
  const NonPositiveSize := ValueError("Chunk size must be a positive integer.")

  function Min(a: int, b: int): int {
    if a <= b then a else b
  }

  /** Concatenation of a list of lists. */
  function Concat<T>(ss: seq<seq<T>>): seq<T> {
    if |ss| == 0 then [] else ss[0] + Concat(ss[1..])
  }

  /** The slices `items[i:i+size]` for `i` from `start` in steps of `size`
      while `i < len(items)`, with Python's clamping of a slice end past the
      length. */
  function SlicesFrom<T>(xs: seq<T>, size: nat, start: nat): (r: seq<seq<T>>)
    requires size > 0
    ensures |r| == 0 <==> start >= |xs|
    decreases |xs| - start
  {
    if start >= |xs| then []
    else [xs[start .. Min(start + size, |xs|)]] + SlicesFrom(xs, size, start + size)
  }

  /** Together the slices from `start` spell `items[start:]`; there are none
      exactly when `start` is past the end; all but the last hold exactly
      `size` elements, and the last holds between one and `size`. */
  lemma {:induction false} SlicesShape<T>(xs: seq<T>, size: nat, start: nat)
    requires size > 0 && start <= |xs|
    ensures var r := SlicesFrom(xs, size, start);
      && Concat(r) == xs[start..]
      && (|r| == 0 <==> start == |xs|)
      && (forall k :: 0 <= k < |r| - 1 ==> |r[k]| == size)
      && (|r| > 0 ==> 0 < |r[|r| - 1]| <= size)
    decreases |xs| - start
  {
    if start < |xs| {
      var end := Min(start + size, |xs|);
      var rest := SlicesFrom(xs, size, start + size);
      var r := SlicesFrom(xs, size, start);
      assert r == [xs[start .. end]] + rest;
      assert r[1..] == rest;
      if start + size <= |xs| {
        SlicesShape(xs, size, start + size);
        assert Concat(rest) == xs[end..];
      } else {
        assert rest == [];
        assert Concat(rest) == xs[end..];
      }
      assert Concat(r) == xs[start .. end] + Concat(rest);
      assert xs[start..] == xs[start .. end] + xs[end..];
    }
  }

  lemma MulSucc(n: int, size: int)
    ensures (n + 1) * size == n * size + size
  {
  }

  /** The slices from `start` number the least `n` with
      `start + n * size >= len(items)`. */
  lemma {:induction false} SlicesCount<T>(xs: seq<T>, size: nat, start: nat)
    requires size > 0 && start <= |xs|
    ensures var n := |SlicesFrom(xs, size, start)|;
      (n - 1) * size < |xs| - start <= n * size
    decreases |xs| - start
  {
    if start < |xs| {
      var n := |SlicesFrom(xs, size, start + size)|;
      assert |SlicesFrom(xs, size, start)| == n + 1;
      if start + size < |xs| {
        SlicesCount(xs, size, start + size);
      } else {
        assert n == 0;
      }
      MulSucc(n - 1, size);
      MulSucc(n, size);
    }
  }

  /** `k * size` as repeated addition, which keeps the slice-by-slice
      induction below free of nonlinear arithmetic. */
  function Steps(k: nat, size: nat): nat {
    if k == 0 then 0 else Steps(k - 1, size) + size
  }

  lemma {:induction false} StepsIsProduct(k: nat, size: nat)
    ensures Steps(k, size) == k * size
  {
    if k > 0 {
      StepsIsProduct(k - 1, size);
      MulSucc(k - 1, size);
    }
  }

  lemma {:induction false} SliceAtSteps<T>(xs: seq<T>, size: nat, start: nat, k: nat)
    requires size > 0
    requires k < |SlicesFrom(xs, size, start)|
    ensures start + Steps(k, size) < |xs|
    ensures SlicesFrom(xs, size, start)[k]
         == xs[start + Steps(k, size) .. Min(start + Steps(k, size) + size, |xs|)]
    decreases k
  {
    var r := SlicesFrom(xs, size, start);
    assert start < |xs|;
    var rest := SlicesFrom(xs, size, start + size);
    assert r == [xs[start .. Min(start + size, |xs|)]] + rest;
    if k > 0 {
      assert r[k] == rest[k - 1];
      SliceAtSteps(xs, size, start + size, k - 1);
      assert Steps(k, size) == Steps(k - 1, size) + size;
    }
  }

  /** Slice `k` of `SlicesFrom(xs, size, start)` is `items[i:i+size]` for the
      `k`-th value `i = start + k * size` of the range. */
  lemma SliceAt<T>(xs: seq<T>, size: nat, start: nat, k: nat)
    requires size > 0
    requires k < |SlicesFrom(xs, size, start)|
    ensures start + k * size < |xs|
    ensures SlicesFrom(xs, size, start)[k] == xs[start + k * size .. Min(start + (k + 1) * size, |xs|)]
  {
    SliceAtSteps(xs, size, start, k);
    StepsIsProduct(k, size);
    MulSucc(k, size);
  }

  /** `chunk(items, size)`, consumed to the end: a ValueError exactly when
      the size is not positive, otherwise slices that concatenate back to the
      input, all of length `size` except a non-empty last one of at most
      `size`, and as many of them as the least `n` with `n * size >= len`,
      that is the ceiling of `len / size`. */
  function Chunk<T>(xs: seq<T>, size: int): (r: Result<seq<seq<T>>, ChunkError>)
    ensures r.Err? <==> size <= 0
    ensures r.Err? ==> r.error == NonPositiveSize
    ensures r.Ok? ==> Concat(r.value) == xs
    ensures r.Ok? ==> forall k :: 0 <= k < |r.value| - 1 ==> |r.value[k]| == size
    ensures r.Ok? && |r.value| > 0 ==> 0 < |r.value[|r.value| - 1]| <= size
    ensures r.Ok? ==> (|r.value| == 0 <==> |xs| == 0)
    ensures r.Ok? ==> |r.value| * size >= |xs| && (|r.value| - 1) * size < |xs|
  {
    if size <= 0 then Err(NonPositiveSize)
    else
      SlicesShape(xs, size, 0);
      SlicesCount(xs, size, 0);
      Ok(SlicesFrom(xs, size, 0))
  }

  lemma DivBetween(x: int, size: int, n: int)
    requires size > 0 && n * size <= x < n * size + size
    ensures x / size == n
  {
    var q, r := x / size, x % size;
    assert x == q * size + r && 0 <= r < size;
    var d := q - n;
    assert d * size == q * size - n * size;
    assert d >= 1 ==> d * size >= size;
    assert d <= -1 ==> d * size <= -size;
  }

  /** The number of slices is `ceil(len(items) / size)`, that is
      `(len(items) + size - 1) // size`. */
  lemma ChunkCount<T>(xs: seq<T>, size: int)
    requires size > 0
    ensures |Chunk(xs, size).value| == (|xs| + size - 1) / size
  {
    var n := |Chunk(xs, size).value|;
    DivBetween(|xs| + size - 1, size, n);
  }

  /** Slice `k` of a successful split is `items[k*size : (k+1)*size]`. */
  lemma ChunkAt<T>(xs: seq<T>, size: int, k: nat)
    requires size > 0 && k < |Chunk(xs, size).value|
    ensures Chunk(xs, size).value[k] == xs[k * size .. Min((k + 1) * size, |xs|)]
  {
    SliceAt(xs, size, 0, k);
  }

  /** `chunk([3, 1, 2, 4, 5], 2)` yields `[3, 1]`, `[2, 4]`, `[5]`, and a size
      of zero is a ValueError. */
  lemma ChunkExamples()
    ensures Chunk([3, 1, 2, 4, 5], 2) == Ok([[3, 1], [2, 4], [5]])
    ensures Chunk([3, 1, 2], 5) == Ok([[3, 1, 2]])
    ensures Chunk([3, 1, 2], 0) == Err(NonPositiveSize)
  {
    var xs := [3, 1, 2, 4, 5];
    var cs := Chunk(xs, 2).value;
    assert |cs| == 3;
    ChunkAt(xs, 2, 0);
    ChunkAt(xs, 2, 1);
    ChunkAt(xs, 2, 2);
    assert xs[0..2] == [3, 1] && xs[2..4] == [2, 4] && xs[4..5] == [5];
    assert cs == [[3, 1], [2, 4], [5]];
    var ys := [3, 1, 2];
    var ds := Chunk(ys, 5).value;
    assert |ds| == 1;
    ChunkAt(ys, 5, 0);
    assert ys[0..3] == ys;
    assert ds == [[3, 1, 2]];
  }
}

=== FILE: flatten.dfy ===
/** `flatten` (pykit/collections.py): depth-first flattening of nested lists,
    where strings and byte strings are atoms and are never split. */
module Flattening {

  /** A Python value as `flatten` sees it. `Atom` stands for any value that is
      not iterable (an int, None, an object); `Str` and `Bytes` are iterable in
      Python but excluded from descent; `List` is every other iterable. */
  datatype Item<A> = Atom(a: A) | Str(s: string) | Bytes(b: seq<bv8>) | List(items: seq<Item<A>>)

  /** The guard of the generator: iterable and neither `str` nor `bytes`. */
  predicate Descends<A>(x: Item<A>) {
    x.List?
  }

  /** No element of `xs` would be descended into. */
  predicate Flat<A>(xs: seq<Item<A>>) {
    forall i :: 0 <= i < |xs| ==> !Descends(xs[i])
  }

  /** The list the generator yields: children of a descended item are yielded
      in place of the item, everything else is yielded as it is. */
  function Flatten<A>(items: seq<Item<A>>): (r: seq<Item<A>>)
    ensures Flat(r)
  {
    if |items| == 0 then []
    else
      var head := if Descends(items[0]) then Flatten(items[0].items) else [items[0]];
      head + Flatten(items[1..])
  }

  /** `x` occurs somewhere in the nesting `items`, at any depth. */
  ghost predicate Occurs<A>(x: Item<A>, items: seq<Item<A>>) {
    && |items| > 0
    && (|| items[0] == x
        || (Descends(items[0]) && Occurs(x, items[0].items))
        || Occurs(x, items[1..]))
  }

  /** Number of nodes in a nesting; the worklist loop below decreases it. */
  function Size<A>(items: seq<Item<A>>): nat {
    if |items| == 0 then 0
    else (if items[0].List? then 1 + Size(items[0].items) else 1) + Size(items[1..])
  }

  lemma {:induction false} SizeAppend<A>(a: seq<Item<A>>, b: seq<Item<A>>)
    ensures Size(a + b) == Size(a) + Size(b)
  {
    if |a| == 0 {
      assert a + b == b;
    } else {
      assert (a + b)[0] == a[0];
      assert (a + b)[1..] == a[1..] + b;
      SizeAppend(a[1..], b);
    }
  }

  /** Flattening distributes over concatenation of the outer list. */
  lemma {:induction false} FlattenAppend<A>(a: seq<Item<A>>, b: seq<Item<A>>)
    ensures Flatten(a + b) == Flatten(a) + Flatten(b)
  {
    if |a| == 0 {
      assert a + b == b;
    } else {
      assert (a + b)[0] == a[0];
      assert (a + b)[1..] == a[1..] + b;
      FlattenAppend(a[1..], b);
    }
  }

  /** An already-flat list comes back unchanged. */
  lemma {:induction false} FlattenOfFlat<A>(xs: seq<Item<A>>)
    requires Flat(xs)
    ensures Flatten(xs) == xs
  {
    if |xs| > 0 {
      FlattenOfFlat(xs[1..]);
      assert xs == [xs[0]] + xs[1..];
    }
  }

  /** Flattening twice is flattening once. */
  lemma FlattenIdempotent<A>(items: seq<Item<A>>)
    ensures Flatten(Flatten(items)) == Flatten(items)
  {
    FlattenOfFlat(Flatten(items));
  }

  /** The output holds exactly the non-list items found at any depth: nothing
      is lost, nothing is invented, and no list survives. */
  lemma {:induction false} FlattenMembership<A>(x: Item<A>, items: seq<Item<A>>)
    ensures x in Flatten(items) <==> !Descends(x) && Occurs(x, items)
  {
    if |items| > 0 {
      FlattenMembership(x, items[1..]);
      if Descends(items[0]) {
        FlattenMembership(x, items[0].items);
      }
    }
  }

  /** A string or byte string anywhere in the nesting is yielded whole, and
      no string or byte string is yielded that the input does not hold. */
  lemma StringsAreAtoms<A>(s: string, b: seq<bv8>, items: seq<Item<A>>)
    ensures Str(s) in Flatten(items) <==> Occurs(Str(s), items)
    ensures Bytes(b) in Flatten(items) <==> Occurs(Bytes(b), items)
  {
    FlattenMembership(Str(s), items);
    FlattenMembership(Bytes(b), items);
  }

  /** The generator consumed one item at a time: a worklist whose front is
      either yielded or replaced by its children. It yields the depth-first,
      left-to-right order of `Flatten`. */
  method FlattenIterative<A>(items: seq<Item<A>>) returns (out: seq<Item<A>>)
    ensures out == Flatten(items)
    ensures Flat(out)
  {
    out := [];
    var work := items;
    while |work| > 0
      invariant out + Flatten(work) == Flatten(items)
      decreases Size(work)
    {
      var x := work[0];
      if Descends(x) {
        SizeAppend(x.items, work[1..]);
        FlattenAppend(x.items, work[1..]);
        work := x.items + work[1..];
      } else {
        out := out + [x];
        work := work[1..];
      }
    }
  }

  /** `flatten([3, 1, 2]) == [3, 1, 2]` and
      `flatten(['a', ['b', 'c']]) == ['a', 'b', 'c']`. */
  lemma FlattenExamples()
    ensures Flatten([Atom(3), Atom(1), Atom(2)]) == [Atom(3), Atom(1), Atom(2)]
    ensures Flatten<int>([Str("a"), List([Str("b"), Str("c")])]) == [Str("a"), Str("b"), Str("c")]
  {
    FlattenOfFlat([Atom(3), Atom(1), Atom(2)]);
  }
}

=== FILE: get_nested.dfy ===
/** `get_nested` (pykit/collections.py): walk a dotted key path through
    nested dictionaries, falling back to a default. */
module NestedLookup {
  import opened Wrappers

  /** A Python value as found in nested, JSON-like data. Dictionary keys are
      strings: the path only ever looks up string keys. */
  datatype Value =
    | Null
    | Bool(b: bool)
    | Int(i: int)
    | Str(s: string)
    | List(items: seq<Value>)
    | Dict(entries: map<string, Value>)

  /** The two exceptions a subscript `d[key]` can raise here; both are caught. */
  datatype LookupError = KeyError(key: string) | TypeError

  /** `str.split(sep)`: the pieces between separators, empty pieces included,
      so a string with `n` separators gives `n + 1` pieces. */
  function Split(s: string, sep: char): (parts: seq<string>)
    ensures |parts| >= 1
    ensures forall i :: 0 <= i < |parts| ==> sep !in parts[i]
  {
    if |s| == 0 then [""]
    else
      var rest := Split(s[1..], sep);
      if s[0] == sep then [""] + rest
      else [[s[0]] + rest[0]] + rest[1..]
  }

  /** `sep.join(parts)`. */
  function Join(parts: seq<string>, sep: char): string
    requires |parts| >= 1
  {
    if |parts| == 1 then parts[0] else parts[0] + [sep] + Join(parts[1..], sep)
  }

  /** Joining the pieces of a split gives back the string. */
  lemma {:induction false} JoinSplit(s: string, sep: char)
    ensures Join(Split(s, sep), sep) == s
  {
    if |s| > 0 {
      JoinSplit(s[1..], sep);
      var rest := Split(s[1..], sep);
      if s[0] == sep {
        assert s == [sep] + s[1..];
      } else {
        var parts := Split(s, sep);
        assert parts[1..] == rest[1..];
        if |rest| == 1 {
          assert s == [s[0]] + rest[0];
        } else {
          assert s == [s[0]] + (rest[0] + [sep] + Join(rest[1..], sep));
        }
      }
    }
  }

  /** Splitting a join of separator-free pieces gives back the pieces. */
  lemma {:induction false} SplitJoin(parts: seq<string>, sep: char)
    requires |parts| >= 1
    requires forall i :: 0 <= i < |parts| ==> sep !in parts[i]
    ensures Split(Join(parts, sep), sep) == parts
    decreases |parts|, |parts[0]|
  {
    var s := Join(parts, sep);
    if |parts[0]| == 0 {
      if |parts| > 1 {
        assert s == [sep] + Join(parts[1..], sep);
        assert s[1..] == Join(parts[1..], sep);
        SplitJoin(parts[1..], sep);
        assert parts == [""] + parts[1..];
      }
    } else {
      var c := parts[0][0];
      var parts' := [parts[0][1..]] + parts[1..];
      assert parts'[1..] == parts[1..];
      assert forall i :: 0 <= i < |parts'| ==> sep !in parts'[i] by {
        assert sep !in parts[0];
      }
      SplitJoin(parts', sep);
      assert s == [c] + Join(parts', sep) by {
        assert parts[0] == [c] + parts[0][1..];
      }
      assert s[1..] == Join(parts', sep);
      assert parts[0] == [c] + parts'[0];
      assert parts == [parts[0]] + parts'[1..];
    }
  }

  /** One step of the reduction: `d[key]`. Only a dictionary can be indexed by
      a string; a missing key is a KeyError, any other value a TypeError. */
  function Subscript(d: Value, key: string): (r: Result<Value, LookupError>)
    ensures r.Ok? <==> d.Dict? && key in d.entries
    ensures r.Ok? ==> r.value == d.entries[key]
    ensures r.Err? && d.Dict? ==> r.error == KeyError(key)
    ensures !d.Dict? ==> r == Err(TypeError)
  {
    match d
    case Dict(entries) => if key in entries then Ok(entries[key]) else Err(KeyError(key))
    case _ => Err(TypeError)
  }

  /** `reduce(lambda d, key: d[key], keys, data)`: subscripts applied in
      order; the first exception ends the reduction. A KeyError it raises
      names a key of the path. */
  function Walk(data: Value, keys: seq<string>): (r: Result<Value, LookupError>)
    ensures r.Err? && r.error.KeyError? ==> r.error.key in keys
  {
    if |keys| == 0 then Ok(data)
    else
      match Subscript(data, keys[0])
      case Err(e) => Err(e)
      case Ok(d) =>
        var rest := Walk(d, keys[1..]);
        assert rest.Err? && rest.error.KeyError? ==> rest.error.key in keys[1..];
        rest
  }

  /** `get_nested(data, key_path, default)`: the value at the end of the
      dotted path, or the default when any step raises KeyError or TypeError.
      It is the default whenever some key on the path is missing or some
      intermediate value is not a dictionary, and otherwise the value the
      path leads to; it never raises. */
  function GetNested(data: Value, path: string, default: Value): (r: Value)
    ensures var keys := Split(path, '.');
      (exists i :: 0 <= i < |keys| && BlockedAt(data, keys, i)) ==> r == default
    ensures var keys := Split(path, '.');
      (forall i :: 0 <= i < |keys| ==> !BlockedAt(data, keys, i)) ==>
        Walk(data, keys).Ok? && r == Walk(data, keys).value
  {
    WalkFailsIffBlocked(data, Split(path, '.'));
    match Walk(data, Split(path, '.'))
    case Ok(v) => v
    case Err(_) => default
  }

  /** The reduction over a concatenated path is the reduction over the first
      part followed by the reduction over the second. */
  lemma {:induction false} WalkAppend(data: Value, a: seq<string>, b: seq<string>)
    ensures Walk(data, a + b) ==
      match Walk(data, a)
      case Ok(d) => Walk(d, b)
      case Err(e) => Err(e)
  {
    if |a| > 0 {
      assert (a + b)[0] == a[0];
      assert (a + b)[1..] == a[1..] + b;
      if Subscript(data, a[0]).Ok? {
        WalkAppend(Subscript(data, a[0]).value, a[1..], b);
      }
    } else {
      assert a + b == b;
    }
  }

  /** Step `i` of the walk cannot proceed: the value reached is not a
      dictionary, or it lacks the key. */
  ghost predicate BlockedAt(data: Value, keys: seq<string>, i: nat)
    requires i < |keys|
  {
    && Walk(data, keys[..i]).Ok?
    && var d := Walk(data, keys[..i]).value;
       !(d.Dict? && keys[i] in d.entries)
  }

  /** The walk fails exactly when some step is blocked. */
  lemma {:induction false} WalkFailsIffBlocked(data: Value, keys: seq<string>)
    ensures Walk(data, keys).Err? <==> exists i :: 0 <= i < |keys| && BlockedAt(data, keys, i)
  {
    if |keys| > 0 {
      assert keys[..0] == [];
      var step := Subscript(data, keys[0]);
      if step.Ok? {
        var d := step.value;
        var tail := keys[1..];
        WalkFailsIffBlocked(d, tail);
        forall i | 1 <= i < |keys|
          ensures BlockedAt(data, keys, i) <==> BlockedAt(d, tail, i - 1)
        {
          assert keys[..i] == [keys[0]] + tail[..i - 1];
          assert keys[..i][1..] == tail[..i - 1];
        }
        if Walk(data, keys).Err? {
          var j :| 0 <= j < |tail| && BlockedAt(d, tail, j);
          assert BlockedAt(data, keys, j + 1);
        }
        if exists i :: 0 <= i < |keys| && BlockedAt(data, keys, i) {
          var i :| 0 <= i < |keys| && BlockedAt(data, keys, i);
          assert i != 0;
          assert BlockedAt(d, tail, i - 1);
        }
      } else {
        assert BlockedAt(data, keys, 0);
      }
    }
  }

  /** An empty dictionary yields the default for every path. */
  lemma GetNestedEmpty(path: string, default: Value)
    ensures GetNested(Dict(map[]), path, default) == default
  {
  }

  /** The singly nested dictionary `{k1: {k2: ... {kn: x}}}`. */
  function Nest(keys: seq<string>, x: Value): Value {
    if |keys| == 0 then x else Dict(map[keys[0] := Nest(keys[1..], x)])
  }

  lemma {:induction false} WalkNest(keys: seq<string>, x: Value)
    ensures Walk(Nest(keys, x), keys) == Ok(x)
  {
    if |keys| > 0 {
      WalkNest(keys[1..], x);
    }
  }

  /** Storing a value under a path of dot-free keys and then looking up the
      dotted path finds that value. */
  lemma GetNestedFindsNested(keys: seq<string>, x: Value, default: Value)
    requires |keys| >= 1
    requires forall i :: 0 <= i < |keys| ==> '.' !in keys[i]
    ensures GetNested(Nest(keys, x), Join(keys, '.'), default) == x
  {
    SplitJoin(keys, '.');
    WalkNest(keys, x);
  }

  /** The data of the test suite:
      `{'user': {'name': 'Alice', 'address': {'city': 'Wonderland'}}}`. */
  const UserData := Dict(map["user" := Dict(map["name" := Str("Alice"),
                                                "address" := Dict(map["city" := Str("Wonderland")])])])

  /** `get_nested(data, 'user.address.city') == 'Wonderland'`. */
  lemma GetNestedFindsCity()
    ensures GetNested(UserData, "user.address.city", Null) == Str("Wonderland")
  {
    var keys := ["user", "address", "city"];
    assert Join(keys[2..], '.') == "city";
    assert Join(keys[1..], '.') == "address.city";
    assert Join(keys, '.') == "user.address.city";
    SplitJoin(keys, '.');
    var user := UserData.entries["user"];
    var address := user.entries["address"];
    assert Walk(address, keys[2..]) == Ok(Str("Wonderland"));
    assert Walk(user, keys[1..]) == Walk(address, keys[2..]);
    assert Walk(UserData, keys) == Walk(user, keys[1..]);
  }

  /** `get_nested(data, 'user.profile.age', default)` is the default. */
  lemma GetNestedMissingAge(default: Value)
    ensures GetNested(UserData, "user.profile.age", default) == default
  {
    var keys := ["user", "profile", "age"];
    assert Join(keys[2..], '.') == "age";
    assert Join(keys[1..], '.') == "profile.age";
    assert Join(keys, '.') == "user.profile.age";
    SplitJoin(keys, '.');
    var user := UserData.entries["user"];
    assert "profile" !in user.entries;
    assert Walk(user, keys[1..]).Err?;
    assert Walk(UserData, keys) == Walk(user, keys[1..]);
  }

  /** `get_nested(data, 'user.address.zip.code')` is None. */
  lemma GetNestedMissingZip()
    ensures GetNested(UserData, "user.address.zip.code", Null) == Null
  {
    var keys := ["user", "address", "zip", "code"];
    assert Join(keys[3..], '.') == "code";
    assert Join(keys[2..], '.') == "zip.code";
    assert Join(keys[1..], '.') == "address.zip.code";
    assert Join(keys, '.') == "user.address.zip.code";
    SplitJoin(keys, '.');
    var user := UserData.entries["user"];
    var address := user.entries["address"];
    assert "zip" !in address.entries;
    assert Walk(address, keys[2..]).Err?;
    assert Walk(user, keys[1..]) == Walk(address, keys[2..]);
    assert Walk(UserData, keys) == Walk(user, keys[1..]);
  }
}

=== FILE: invert_dict.dfy ===
/** `invert_dict` (pykit/collections.py): swap the keys and values of a
    dictionary. With distinct values each value maps back to its one key;
    otherwise each value maps to the list of all keys carrying it. */
module Inversion {
  import Dedup

  /** A Python dict as the list of its items in insertion order. */
  type Items<K, V> = seq<(K, V)>

  /** The two shapes `invert_dict` returns. */
  datatype Inverted<K, V> =
    | Swapped(swapped: map<V, K>)
    | Grouped(groups: map<V, seq<K>>)

  function Keys<K, V>(data: Items<K, V>): (ks: seq<K>)
    ensures |ks| == |data|
    ensures forall i :: 0 <= i < |data| ==> ks[i] == data[i].0
  {
    seq(|data|, i requires 0 <= i < |data| => data[i].0)
  }

  /** `data.values()`, in insertion order. */
  function Values<K, V>(data: Items<K, V>): (vs: seq<V>)
    ensures |vs| == |data|
    ensures forall i :: 0 <= i < |data| ==> vs[i] == data[i].1
  {
    seq(|data|, i requires 0 <= i < |data| => data[i].1)
  }

  /** A dictionary never holds a key twice. */
  ghost predicate WellFormed<K, V>(data: Items<K, V>) {
    Dedup.Distinct(Keys(data))
  }

  /** The dictionary the items describe. */
  function ToMap<K, V>(data: Items<K, V>): (m: map<K, V>)
    ensures m.Keys == set i | 0 <= i < |data| :: data[i].0
  {
    if |data| == 0 then map[]
    else
      var pre := data[..|data| - 1];
      var m := ToMap(pre)[data[|data| - 1].0 := data[|data| - 1].1];
      assert (set i | 0 <= i < |data| :: data[i].0) ==
        (set i | 0 <= i < |pre| :: pre[i].0) + {data[|data| - 1].0} by {
        forall i | 0 <= i < |pre| ensures pre[i] == data[i] { }
      }
      m
  }

  /** `set(s)`. */
  function SetOf<T>(s: seq<T>): set<T> {
    set x | x in s
  }

  lemma {:induction false} SetOfSnoc<T>(s: seq<T>, x: T)
    ensures SetOf(s + [x]) == SetOf(s) + {x}
  {
    assert forall y :: y in s + [x] <==> y in s || y == x;
  }

  /** `len(set(s)) == len(s)` holds exactly when no element repeats. */
  lemma {:induction false} SetSizeIffDistinct<T>(s: seq<T>)
    ensures |SetOf(s)| <= |s|
    ensures |SetOf(s)| == |s| <==> Dedup.Distinct(s)
  {
    if |s| > 0 {
      var pre, x := s[..|s| - 1], s[|s| - 1];
      assert s == pre + [x];
      SetSizeIffDistinct(pre);
      SetOfSnoc(pre, x);
      if x in pre {
        assert SetOf(s) == SetOf(pre);
        var j :| 0 <= j < |pre| && pre[j] == x;
        assert s[j] == s[|s| - 1];
      } else {
        assert |SetOf(s)| == |SetOf(pre)| + 1;
        if Dedup.Distinct(pre) {
          assert Dedup.Distinct(s) by {
            forall i, j | 0 <= i < j < |s|
              ensures s[i] != s[j]
            {
              if j < |s| - 1 {
                assert s[i] == pre[i] && s[j] == pre[j];
              } else {
                assert s[i] in pre;
              }
            }
          }
        } else {
          var i, j :| 0 <= i < j < |pre| && pre[i] == pre[j];
          assert s[i] == s[j];
        }
      }
    }
  }

  /** `{value: key for key, value in data.items()}`: later items overwrite
      earlier ones that carry the same value. */
  function SwapAll<K, V>(data: Items<K, V>): (m: map<V, K>)
    ensures m.Keys == SetOf(Values(data))
    ensures forall v :: v in m ==> exists i :: 0 <= i < |data| && data[i] == (m[v], v)
  {
    if |data| == 0 then map[]
    else
      var pre := data[..|data| - 1];
      var last := data[|data| - 1];
      assert Values(data) == Values(pre) + [last.1];
      SetOfSnoc(Values(pre), last.1);
      assert forall i :: 0 <= i < |pre| ==> pre[i] == data[i];
      SwapAll(pre)[last.1 := last.0]
  }

  /** With distinct values, every item is inverted: its value maps back to its key. */
  lemma {:induction false} SwapAllComplete<K, V>(data: Items<K, V>)
    requires Dedup.Distinct(Values(data))
    ensures forall i :: 0 <= i < |data| ==> SwapAll(data)[data[i].1] == data[i].0
  {
    if |data| > 0 {
      var pre := data[..|data| - 1];
      var last := data[|data| - 1];
      assert forall i :: 0 <= i < |pre| ==> pre[i] == data[i];
      assert Dedup.Distinct(Values(pre)) by {
        forall i, j | 0 <= i < j < |pre|
          ensures Values(pre)[i] != Values(pre)[j]
        {
          assert Values(data)[i] != Values(data)[j];
        }
      }
      SwapAllComplete(pre);
      forall i | 0 <= i < |data| - 1
        ensures data[i].1 != last.1
      {
        assert Values(data)[i] != Values(data)[|data| - 1];
      }
    }
  }

  /** Keys carrying value `v`, in input order. */
  ghost function KeysWith<K, V>(data: Items<K, V>, v: V): seq<K> {
    if |data| == 0 then []
    else (if data[0].1 == v then [data[0].0] else []) + KeysWith(data[1..], v)
  }

  lemma {:induction false} KeysWithSnoc<K, V>(data: Items<K, V>, item: (K, V), v: V)
    ensures KeysWith(data + [item], v) == KeysWith(data, v) + (if item.1 == v then [item.0] else [])
  {
    if |data| == 0 {
      assert data + [item] == [item];
    } else {
      var d := data + [item];
      assert d[0] == data[0];
      assert d[1..] == data[1..] + [item];
      KeysWithSnoc(data[1..], item, v);
      var h := if data[0].1 == v then [data[0].0] else [];
      assert KeysWith(d, v) == h + KeysWith(d[1..], v);
      assert KeysWith(data, v) == h + KeysWith(data[1..], v);
    }
  }

  /** A key is in the list of `v` exactly when it carries `v`. */
  lemma {:induction false} KeysWithMembership<K, V>(data: Items<K, V>, v: V, k: K)
    ensures k in KeysWith(data, v) <==> exists i :: 0 <= i < |data| && data[i] == (k, v)
  {
    if |data| > 0 {
      KeysWithMembership(data[1..], v, k);
      if exists i :: 0 <= i < |data| && data[i] == (k, v) {
        var i :| 0 <= i < |data| && data[i] == (k, v);
        if i > 0 {
          assert data[1..][i - 1] == (k, v);
        }
      }
      if exists i :: 0 <= i < |data[1..]| && data[1..][i] == (k, v) {
        var i :| 0 <= i < |data[1..]| && data[1..][i] == (k, v);
        assert data[i + 1] == (k, v);
      }
    }
  }

  /** A value no item carries has no keys. */
  lemma KeysWithAbsent<K, V>(data: Items<K, V>, v: V)
    requires v !in SetOf(Values(data))
    ensures KeysWith(data, v) == []
  {
    forall k
      ensures k !in KeysWith(data, v)
    {
      KeysWithMembership(data, v, k);
      forall i | 0 <= i < |data|
        ensures data[i] != (k, v)
      {
        assert Values(data)[i] in SetOf(Values(data));
      }
    }
  }

  /** One turn of the grouping loop: appending the item's key to the list
      of its value keeps the groups of the items seen so far. */
  lemma GroupStep<K, V>(pre: Items<K, V>, last: (K, V), g: map<V, seq<K>>)
    requires g.Keys == SetOf(Values(pre))
    requires forall v :: v in g ==> g[v] == KeysWith(pre, v)
    ensures var g' := g[last.1 := (if last.1 in g then g[last.1] else []) + [last.0]];
      && g'.Keys == SetOf(Values(pre + [last]))
      && forall v :: v in g' ==> g'[v] == KeysWith(pre + [last], v)
  {
    assert Values(pre + [last]) == Values(pre) + [last.1];
    SetOfSnoc(Values(pre), last.1);
    var g' := g[last.1 := (if last.1 in g then g[last.1] else []) + [last.0]];
    forall v | v in g'
      ensures g'[v] == KeysWith(pre + [last], v)
    {
      KeysWithSnoc(pre, last, v);
      if v !in g {
        KeysWithAbsent(pre, v);
      }
    }
  }

  /** The `defaultdict(list)` loop: each key is appended to the list of its
      value. The result maps every value of the input, and only those, to
      the keys carrying it, in input order. */
  function GroupAll<K, V>(data: Items<K, V>): (g: map<V, seq<K>>)
    ensures g.Keys == SetOf(Values(data))
    ensures forall v :: v in g ==> g[v] == KeysWith(data, v)
  {
    if |data| == 0 then map[]
    else
      var pre := data[..|data| - 1];
      var last := data[|data| - 1];
      assert data == pre + [last];
      var g := GroupAll(pre);
      GroupStep(pre, last, g);
      g[last.1 := (if last.1 in g then g[last.1] else []) + [last.0]]
  }

  /** `invert_dict(data)`: the swapped dictionary when `len(set(values))`
      equals `len(values)`, the grouped one otherwise. */
  function InvertDict<K, V>(data: Items<K, V>): (r: Inverted<K, V>)
    ensures r.Swapped? <==> Dedup.Distinct(Values(data))
  {
    SetSizeIffDistinct(Values(data));
    if |SetOf(Values(data))| == |Values(data)| then Swapped(SwapAll(data))
    else Grouped(GroupAll(data))
  }

  /** With distinct values the swapped dictionary has the input's values as keys. */
  lemma SwapAllKeys<K, V>(data: Items<K, V>)
    requires WellFormed(data)
    requires Dedup.Distinct(Values(data))
    ensures SwapAll(data).Keys == ToMap(data).Values
  {
    var m := ToMap(data);
    var s := SwapAll(data);
    ToMapLookup(data);
    forall v | v in s
      ensures v in m.Values
    {
      var i :| 0 <= i < |data| && data[i] == (s[v], v);
      assert m[data[i].0] == v;
    }
    forall v | v in m.Values
      ensures v in s
    {
      var k :| k in m && m[k] == v;
      var i :| 0 <= i < |data| && data[i].0 == k;
      assert Values(data)[i] == v;
    }
  }

  /** With distinct values the swapped dictionary maps `v` to `k` exactly
      when the input maps `k` to `v`. */
  lemma SwapAllInverts<K, V>(data: Items<K, V>, k: K, v: V)
    requires WellFormed(data)
    requires Dedup.Distinct(Values(data))
    ensures (k in ToMap(data) && ToMap(data)[k] == v) <==> (v in SwapAll(data) && SwapAll(data)[v] == k)
  {
    var m := ToMap(data);
    var s := SwapAll(data);
    ToMapLookup(data);
    SwapAllComplete(data);
    if k in m && m[k] == v {
      var i :| 0 <= i < |data| && data[i].0 == k;
      assert data[i].1 == v;
    }
    if v in s && s[v] == k {
      var i :| 0 <= i < |data| && data[i] == (k, v);
    }
  }

  /** Distinct values: the result is the exact inverse of the dictionary, its
      keys are the input's values, and it maps `v` to `k` exactly when the
      input maps `k` to `v`. */
  lemma SwappedIsInverse<K, V>(data: Items<K, V>)
    requires WellFormed(data)
    requires Dedup.Distinct(Values(data))
    ensures InvertDict(data).Swapped?
    ensures InvertDict(data).swapped.Keys == ToMap(data).Values
    ensures forall k, v :: (k in ToMap(data) && ToMap(data)[k] == v) <==>
                           (v in InvertDict(data).swapped && InvertDict(data).swapped[v] == k)
  {
    SwapAllKeys(data);
    forall k, v
      ensures (k in ToMap(data) && ToMap(data)[k] == v) <==> (v in SwapAll(data) && SwapAll(data)[v] == k)
    {
      SwapAllInverts(data, k, v);
    }
  }

  /** In a well-formed dictionary each item is found under its key. */
  lemma {:induction false} ToMapLookup<K, V>(data: Items<K, V>)
    requires WellFormed(data)
    ensures forall i :: 0 <= i < |data| ==> ToMap(data)[data[i].0] == data[i].1
  {
    if |data| > 0 {
      var pre := data[..|data| - 1];
      var last := data[|data| - 1];
      assert forall i :: 0 <= i < |pre| ==> pre[i] == data[i];
      assert WellFormed(pre) by {
        forall i, j | 0 <= i < j < |pre|
          ensures Keys(pre)[i] != Keys(pre)[j]
        {
          assert Keys(data)[i] != Keys(data)[j];
        }
      }
      ToMapLookup(pre);
      forall i | 0 <= i < |data| - 1
        ensures data[i].0 != last.0
      {
        assert Keys(data)[i] != Keys(data)[|data| - 1];
      }
    }
  }

  /** Total length of the key lists of the values `vs`. */
  ghost function TotalLength<K, V>(data: Items<K, V>, vs: seq<V>): nat {
    if |vs| == 0 then 0 else |KeysWith(data, vs[0])| + TotalLength(data, vs[1..])
  }

  lemma {:induction false} TotalLengthStep<K, V>(data: Items<K, V>, vs: seq<V>)
    requires |data| > 0
    ensures TotalLength(data, vs) == Dedup.Count(vs, data[0].1) + TotalLength(data[1..], vs)
  {
    if |vs| > 0 {
      TotalLengthStep(data, vs[1..]);
    }
  }

  lemma {:induction false} TotalLengthIsSize<K, V>(data: Items<K, V>, vs: seq<V>)
    requires Dedup.Distinct(vs)
    requires forall i :: 0 <= i < |data| ==> data[i].1 in vs
    ensures TotalLength(data, vs) == |data|
  {
    if |data| == 0 {
      ZeroLength<K, V>(vs);
    } else {
      TotalLengthStep(data, vs);
      Dedup.CountDistinct(vs, data[0].1);
      assert forall i :: 0 <= i < |data[1..]| ==> data[1..][i] == data[i + 1];
      TotalLengthIsSize(data[1..], vs);
    }
  }

  lemma {:induction false} ZeroLength<K, V>(vs: seq<V>)
    ensures TotalLength<K, V>([], vs) == 0
  {
    if |vs| > 0 {
      ZeroLength<K, V>(vs[1..]);
    }
  }

  /** Duplicate values: every value of the input maps to the keys carrying
      it, in input order; a key is in the list of a value exactly when it
      carries that value, so in a well-formed dictionary the lists partition
      the keys, and taken over the distinct values their lengths add up to
      the size of the dictionary. */
  lemma GroupedPartitionsKeys<K, V>(data: Items<K, V>)
    requires WellFormed(data)
    requires !Dedup.Distinct(Values(data))
    ensures InvertDict(data).Grouped?
    ensures InvertDict(data).groups.Keys == SetOf(Values(data))
    ensures forall v :: v in InvertDict(data).groups ==> InvertDict(data).groups[v] == KeysWith(data, v)
    ensures forall k, v :: v in InvertDict(data).groups ==>
      (k in InvertDict(data).groups[v] <==> k in ToMap(data) && ToMap(data)[k] == v)
    ensures TotalLength(data, Dedup.Unique(Values(data))) == |data|
  {
    var g := GroupAll(data);
    ToMapLookup(data);
    forall k, v | v in g
      ensures k in g[v] <==> k in ToMap(data) && ToMap(data)[k] == v
    {
      KeysWithMembership(data, v, k);
      if k in ToMap(data) && ToMap(data)[k] == v {
        var i :| 0 <= i < |data| && data[i].0 == k;
        assert data[i] == (k, v);
      }
    }
    var u := Dedup.Unique(Values(data));
    forall i | 0 <= i < |data|
      ensures data[i].1 in u
    {
      assert Values(data)[i] == data[i].1;
    }
    TotalLengthIsSize(data, u);
  }

  /** `invert_dict({'a': 1, 'b': 2}) == {1: 'a', 2: 'b'}`. */
  lemma InvertDistinctExample()
    ensures InvertDict([("a", 1), ("b", 2)]) == Swapped(map[1 := "a", 2 := "b"])
  {
    var data: Items<string, int> := [("a", 1), ("b", 2)];
    assert Values(data) == [1, 2];
    assert Dedup.Distinct(Values(data));
    assert data[..1] == [("a", 1)];
    assert |data[..1][..0]| == 0;
    assert SwapAll(data[..1]) == map[1 := "a"];
    assert SwapAll(data) == map[1 := "a", 2 := "b"];
  }

  lemma KeysOfThree<K, V>(a: K, b: K, c: K, x: V, y: V)
    requires x != y
    ensures KeysWith([(a, x), (b, y), (c, x)], x) == [a, c]
    ensures KeysWith([(a, x), (b, y), (c, x)], y) == [b]
  {
    var data := [(a, x), (b, y), (c, x)];
    var d1, d2 := data[1..], data[1..][1..];
    assert d1 == [(b, y), (c, x)] && d2 == [(c, x)];
    assert KeysWith(d2, x) == [c] && KeysWith(d2, y) == [];
    assert KeysWith(d1, x) == [c] && KeysWith(d1, y) == [b];
  }

  /** Grouping three items whose first and last carry the same value. */
  lemma GroupsOfThree<K, V>(a: K, b: K, c: K, x: V, y: V)
    requires x != y
    ensures GroupAll([(a, x), (b, y), (c, x)]) == map[x := [a, c], y := [b]]
  {
    var data := [(a, x), (b, y), (c, x)];
    KeysOfThree(a, b, c, x, y);
    assert SetOf(Values(data)) == {x, y} by {
      assert Values(data) == [x, y, x];
    }
  }

  /** `invert_dict({'a': 1, 'b': 2, 'c': 1}) == {1: ['a', 'c'], 2: ['b']}`. */
  lemma InvertDuplicateExample()
    ensures InvertDict([("a", 1), ("b", 2), ("c", 1)]) == Grouped(map[1 := ["a", "c"], 2 := ["b"]])
  {
    var data: Items<string, int> := [("a", 1), ("b", 2), ("c", 1)];
    assert !Dedup.Distinct(Values(data)) by {
      assert Values(data)[0] == Values(data)[2];
    }
    GroupsOfThree("a", "b", "c", 1, 2);
  }
}

=== FILE: memoize.dfy ===
/** `memoize` (pykit/decorators.py): a per-function cache from the call's
    arguments to the function's result, filled on the first call with each
    key and never evicted. */
module Memoization {
  import opened Wrappers
  import Dedup

  /** The cache key `(args, frozenset(kwargs.items()))`: positional
      arguments in order, keyword arguments as an unordered set of pairs. */
  datatype Key<A(==)> = Key(args: seq<A>, kwargs: set<(string, A)>)

  /** The key of a call written with positional arguments `args` and keyword
      arguments `kwargs`, the latter in the order they were written. */
  function MakeKey<A(==)>(args: seq<A>, kwargs: seq<(string, A)>): (k: Key<A>)
    ensures k.args == args
    ensures forall i :: 0 <= i < |kwargs| ==> kwargs[i] in k.kwargs
    ensures forall p | p in k.kwargs :: p in kwargs
  {
    Key(args, set i | 0 <= i < |kwargs| :: kwargs[i])
  }

  /** Two calls share a cache entry exactly when their positional arguments
      are equal in order and they pass the same keyword pairs. */
  lemma SameKeyIff<A>(args1: seq<A>, kwargs1: seq<(string, A)>, args2: seq<A>, kwargs2: seq<(string, A)>)
    ensures MakeKey(args1, kwargs1) == MakeKey(args2, kwargs2) <==>
      args1 == args2 && (forall p :: p in kwargs1 <==> p in kwargs2)
  {
    var s1 := set i | 0 <= i < |kwargs1| :: kwargs1[i];
    var s2 := set i | 0 <= i < |kwargs2| :: kwargs2[i];
    assert forall p :: p in s1 <==> p in kwargs1;
    assert forall p :: p in s2 <==> p in kwargs2;
  }

  /** Writing the keyword arguments in another order hits the same entry. */
  lemma KeyIgnoresKeywordOrder<A>(args: seq<A>, kwargs1: seq<(string, A)>, kwargs2: seq<(string, A)>)
    requires multiset(kwargs1) == multiset(kwargs2)
    ensures MakeKey(args, kwargs1) == MakeKey(args, kwargs2)
  {
    forall p
      ensures p in kwargs1 <==> p in kwargs2
    {
      assert p in kwargs1 <==> p in multiset(kwargs1);
      assert p in kwargs2 <==> p in multiset(kwargs2);
    }
    SameKeyIff(args, kwargs1, args, kwargs2);
  }

  /** Positional arguments in another order make another key: `f(1, 2)` and
      `f(2, 1)` are cached separately. */
  lemma KeyRespectsPositionalOrder<A>(x: A, y: A, kwargs: seq<(string, A)>)
    requires x != y
    ensures MakeKey([x, y], kwargs) != MakeKey([y, x], kwargs)
  {
    SameKeyIff([x, y], kwargs, [y, x], kwargs);
  }

  /** The state after one call of the wrapper: the cache, what the call
      returned or raised, and whether the wrapped function was invoked. */
  datatype Step<A(==), R, E> = Step(cache: map<Key<A>, R>, outcome: Result<R, E>, invoked: bool)

  /** One call of the wrapper. On a hit the stored value is returned and the
      function is not invoked; on a miss the function is invoked, a returned
      value is stored under the key and returned, and a raised exception
      propagates with nothing stored. */
  function Call<A(==), R, E>(cache: map<Key<A>, R>, key: Key<A>, f: Key<A> -> Result<R, E>): (s: Step<A, R, E>)
    ensures s.invoked <==> key !in cache
    ensures !s.invoked ==> s.outcome == Ok(cache[key]) && s.cache == cache
    ensures s.invoked ==> s.outcome == f(key)
    ensures forall k :: k in cache ==> k in s.cache && s.cache[k] == cache[k]
    ensures s.cache.Keys == cache.Keys + (if s.outcome.Ok? then {key} else {})
  {
    if key in cache then Step(cache, Ok(cache[key]), false)
    else
      match f(key)
      case Ok(v) => Step(cache[key := v], Ok(v), true)
      case Err(e) => Step(cache, Err(e), true)
  }

  /** Every stored entry is what the (deterministic) function returns for its key. */
  ghost predicate Consistent<A, R, E>(cache: map<Key<A>, R>, f: Key<A> -> Result<R, E>) {
    forall k :: k in cache ==> f(k) == Ok(cache[k])
  }

  /** Memoizing is invisible to the caller: from a consistent cache a call
      returns or raises exactly what the function itself would, and leaves
      the cache consistent. */
  lemma CallIsTransparent<A, R, E>(cache: map<Key<A>, R>, key: Key<A>, f: Key<A> -> Result<R, E>)
    requires Consistent(cache, f)
    ensures Call(cache, key, f).outcome == f(key)
    ensures Consistent(Call(cache, key, f).cache, f)
  {
  }

  /** A sequence of calls: the final cache, each call's outcome, and the keys
      for which the function was invoked, in order. */
  datatype Trace<A(==), R, E> = Trace(cache: map<Key<A>, R>, outcomes: seq<Result<R, E>>, invoked: seq<Key<A>>)

  function Run<A(==), R, E>(cache: map<Key<A>, R>, keys: seq<Key<A>>, f: Key<A> -> Result<R, E>): (t: Trace<A, R, E>)
    ensures |t.outcomes| == |keys|
    decreases |keys|
  {
    if |keys| == 0 then Trace(cache, [], [])
    else
      var s := Call(cache, keys[0], f);
      var t := Run(s.cache, keys[1..], f);
      Trace(t.cache, [s.outcome] + t.outcomes, (if s.invoked then [keys[0]] else []) + t.invoked)
  }

  /** The function is invoked at most once per key that it answers: once if
      the key was called and not yet cached, never otherwise. */
  lemma {:induction false} InvokedAtMostOnce<A, R, E>(
    cache: map<Key<A>, R>, keys: seq<Key<A>>, f: Key<A> -> Result<R, E>, k: Key<A>)
    requires f(k).Ok?
    ensures Dedup.Count(Run(cache, keys, f).invoked, k) == if k !in cache && k in keys then 1 else 0
    decreases |keys|
  {
    if |keys| > 0 {
      var s := Call(cache, keys[0], f);
      InvokedAtMostOnce(s.cache, keys[1..], f, k);
      assert k in keys <==> k == keys[0] || k in keys[1..];
      var inv := if s.invoked then [keys[0]] else [];
      Dedup.CountAppend(inv, Run(s.cache, keys[1..], f).invoked, k);
    }
  }

  /** A key whose call raises is never cached, so the function is invoked
      again on every call with it. */
  lemma {:induction false} FailuresAreRetried<A, R, E>(
    cache: map<Key<A>, R>, keys: seq<Key<A>>, f: Key<A> -> Result<R, E>, k: Key<A>)
    requires f(k).Err? && k !in cache
    ensures k !in Run(cache, keys, f).cache
    ensures Dedup.Count(Run(cache, keys, f).invoked, k) == Dedup.Count(keys, k)
    decreases |keys|
  {
    if |keys| > 0 {
      var s := Call(cache, keys[0], f);
      FailuresAreRetried(s.cache, keys[1..], f, k);
      var inv := if s.invoked then [keys[0]] else [];
      Dedup.CountAppend(inv, Run(s.cache, keys[1..], f).invoked, k);
    }
  }

  /** The cache only grows: entries present before a run are still there,
      unchanged, after it. */
  lemma {:induction false} RunOnlyGrows<A, R, E>(cache: map<Key<A>, R>, keys: seq<Key<A>>, f: Key<A> -> Result<R, E>)
    ensures forall k :: k in cache ==> k in Run(cache, keys, f).cache && Run(cache, keys, f).cache[k] == cache[k]
    decreases |keys|
  {
    if |keys| > 0 {
      RunOnlyGrows(Call(cache, keys[0], f).cache, keys[1..], f);
    }
  }

  /** From a consistent cache, every call of a run returns or raises what the
      function itself would. */
  lemma {:induction false} RunIsTransparent<A, R, E>(cache: map<Key<A>, R>, keys: seq<Key<A>>, f: Key<A> -> Result<R, E>)
    requires Consistent(cache, f)
    ensures forall i :: 0 <= i < |keys| ==> Run(cache, keys, f).outcomes[i] == f(keys[i])
    decreases |keys|
  {
    if |keys| > 0 {
      var s := Call(cache, keys[0], f);
      CallIsTransparent(cache, keys[0], f);
      RunIsTransparent(s.cache, keys[1..], f);
      var t := Run(cache, keys, f);
      forall i | 1 <= i < |keys|
        ensures t.outcomes[i] == f(keys[i])
      {
        assert t.outcomes[i] == Run(s.cache, keys[1..], f).outcomes[i - 1];
        assert keys[1..][i - 1] == keys[i];
      }
    }
  }

  /** The doubling function of the test suite. */
  function Double(k: Key<int>): Result<int, string> {
    if |k.args| == 1 && k.kwargs == {} then Ok(2 * k.args[0]) else Err("TypeError")
  }

  /** Calling the memoized doubler with 5, 5 and 10 returns 10, 10 and 20 and
      invokes it for 5 and for 10 only. */
  lemma DoubleExample()
    ensures var k5, k10 := MakeKey([5], []), MakeKey([10], []);
      Run(map[], [k5, k5, k10], Double) == Trace(map[k5 := 10, k10 := 20], [Ok(10), Ok(10), Ok(20)], [k5, k10])
  {
    var k5, k10 := MakeKey([5], []), MakeKey([10], []);
    assert k5.kwargs == {} && k10.kwargs == {};
    assert k5 != k10;
    var keys := [k5, k5, k10];
    assert keys[1..] == [k5, k10] && keys[1..][1..] == [k10] && keys[1..][1..][1..] == [];
    assert Double(k5) == Ok(10) && Double(k10) == Ok(20);
    var c1 := map[k5 := 10];
    var c2 := map[k5 := 10, k10 := 20];
    assert Call(map[], k5, Double) == Step(c1, Ok(10), true);
    assert Call(c1, k5, Double) == Step(c1, Ok(10), false);
    assert Call(c1, k10, Double) == Step(c2, Ok(20), true);
    assert Run(c2, [], Double) == Trace(c2, [], []);
    assert Run(c1, [k10], Double) == Trace(c2, [Ok(20)], [k10]);
    assert Run(c1, [k5, k10], Double) == Trace(c2, [Ok(10), Ok(20)], [k10]);
  }
}

=== FILE: retry.dfy ===
/** `retry` (pykit/decorators.py): call an operation up to `tries` times,
    sleeping between failed attempts with a delay multiplied by `backoff`
    after each failure; the last attempt is made unguarded. */
module Retrying {
  import opened Wrappers

  /** What one call of the wrapper amounts to: the returned value or the
      propagated exception, the delays slept, in order, and the number of
      times the operation was invoked. */
  datatype Run<R, E> = Run(outcome: Result<R, E>, sleeps: seq<nat>, calls: nat)

  function Pow(b: nat, k: nat): nat {
    if k == 0 then 1 else b * Pow(b, k - 1)
  }

  lemma PowShift(delay: nat, backoff: nat, k: nat)
    ensures (delay * backoff) * Pow(backoff, k) == delay * Pow(backoff, k + 1)
  {
    assert Pow(backoff, k + 1) == backoff * Pow(backoff, k);
  }

  /** Attempts a `tries` setting allows: the loop runs while more than one
      try is left, then one final attempt follows, so `tries <= 1` means a
      single attempt. */
  function Attempts(tries: int): nat {
    if tries > 1 then tries else 1
  }

  /** The loop from the state `_tries = remaining`, `_delay = delay`, after
      `made` invocations. `op(n)` is what the invocation numbered `n`
      (counting from 0) returns or raises. It stops at the first success,
      sleeps only after a failure that still has a try behind it, and the
      outcome of the last invocation is what surfaces. */
  function Loop<R, E>(remaining: int, delay: nat, backoff: nat, op: nat -> Result<R, E>, made: nat): (r: Run<R, E>)
    ensures made < r.calls <= made + Attempts(remaining)
    ensures r.outcome == op(r.calls - 1)
    ensures forall n :: made <= n < r.calls - 1 ==> op(n).Err?
    ensures r.outcome.Ok? || r.calls == made + Attempts(remaining)
    ensures |r.sleeps| == r.calls - made - 1
    ensures forall k :: 0 <= k < |r.sleeps| ==> r.sleeps[k] == delay * Pow(backoff, k)
    decreases remaining
  {
    if remaining > 1 then
      match op(made)
      case Ok(v) => Run(Ok(v), [], made + 1)
      case Err(e) =>
        var rest := Loop(remaining - 1, delay * backoff, backoff, op, made + 1);
        var r := Run(rest.outcome, [delay] + rest.sleeps, rest.calls);
        assert forall k :: 1 <= k < |r.sleeps| ==> r.sleeps[k] == delay * Pow(backoff, k) by {
          forall k | 1 <= k < |r.sleeps|
            ensures r.sleeps[k] == delay * Pow(backoff, k)
          {
            assert r.sleeps[k] == rest.sleeps[k - 1];
            PowShift(delay, backoff, k - 1);
          }
        }
        r
    else
      Run(op(made), [], made + 1)
  }

  /** `retry(tries, delay, backoff)(op)()`: invocations numbered from 0; the
      first success ends the run; when every allowed attempt fails, the
      exception of the last one propagates; the `k`-th sleep (from 0) lasts
      `delay * backoff^k`, and there is one sleep fewer than invocations. */
  function Retry<R, E>(tries: int, delay: nat, backoff: nat, op: nat -> Result<R, E>): (r: Run<R, E>)
    ensures 1 <= r.calls <= Attempts(tries)
    ensures r.outcome == op(r.calls - 1)
    ensures forall n :: 0 <= n < r.calls - 1 ==> op(n).Err?
    ensures r.outcome.Ok? || r.calls == Attempts(tries)
    ensures |r.sleeps| == r.calls - 1
    ensures forall k :: 0 <= k < |r.sleeps| ==> r.sleeps[k] == delay * Pow(backoff, k)
  {
    Loop(tries, delay, backoff, op, 0)
  }

  /** The wrapper as written: a countdown of tries and a growing delay, a
      return from inside the loop on success, and a final unguarded call. */
  method RetryLoop<R, E>(tries: int, delay: nat, backoff: nat, op: nat -> Result<R, E>)
    returns (outcome: Result<R, E>, sleeps: seq<nat>, calls: nat)
    ensures Run(outcome, sleeps, calls) == Retry(tries, delay, backoff, op)
  {
    var t: int, d: nat := tries, delay;
    sleeps, calls := [], 0;
    while t > 1
      invariant var rest := Loop(t, d, backoff, op, calls);
        && Loop(tries, delay, backoff, op, 0) == Run(rest.outcome, sleeps + rest.sleeps, rest.calls)
      decreases t
    {
      var o := op(calls);
      calls := calls + 1;
      if o.Ok? {
        outcome := o;
        return;
      }
      sleeps := sleeps + [d];
      t, d := t - 1, d * backoff;
    }
    outcome := op(calls);
    calls := calls + 1;
  }

  /** An operation that always fails is invoked `max(tries, 1)` times, and
      the exception of the last invocation is the one that propagates. */
  lemma AlwaysFailing<R, E>(tries: int, delay: nat, backoff: nat, op: nat -> Result<R, E>)
    requires forall n :: op(n).Err?
    ensures Retry(tries, delay, backoff, op).calls == Attempts(tries)
    ensures Retry(tries, delay, backoff, op).outcome == op(Attempts(tries) - 1)
    ensures |Retry(tries, delay, backoff, op).sleeps| == Attempts(tries) - 1
  {
  }

  /** When invocation `i` (from 0) is the first success and falls within the
      allowed attempts, its value is returned after `i + 1` invocations and
      `i` sleeps. */
  lemma FirstSuccess<R, E>(tries: int, delay: nat, backoff: nat, op: nat -> Result<R, E>, i: nat)
    requires i < Attempts(tries)
    requires op(i).Ok?
    requires forall n :: 0 <= n < i ==> op(n).Err?
    ensures Retry(tries, delay, backoff, op).outcome == op(i)
    ensures Retry(tries, delay, backoff, op).calls == i + 1
    ensures |Retry(tries, delay, backoff, op).sleeps| == i
  {
  }

  /** `tries <= 1` means exactly one attempt and no sleep, whatever happens. */
  lemma SingleTry<R, E>(tries: int, delay: nat, backoff: nat, op: nat -> Result<R, E>)
    requires tries <= 1
    ensures Retry(tries, delay, backoff, op) == Run(op(0), [], 1)
  {
  }

  /** The test operation that fails twice before succeeding: with three tries
      and the default backoff of 2 it returns "Success" after three
      invocations, sleeping `delay` and then `delay * 2`. */
  lemma SometimesFailExample(delay: nat)
    ensures Retry(3, delay, 2, n => if n < 2 then Err("Temporary failure") else Ok("Success"))
         == Run(Ok("Success"), [delay, delay * 2], 3)
  {
    var r := Retry(3, delay, 2, n => if n < 2 then Err("Temporary failure") else Ok("Success"));
    assert Pow(2, 1) == 2;
    assert r.sleeps == [delay, delay * 2];
  }

  /** The test operation that always fails: with three tries it is invoked
      three times, its error propagates, and it sleeps `delay` and then
      `delay * 2`. */
  lemma AlwaysFailExample(delay: nat)
    ensures Retry<string, string>(3, delay, 2, (n: nat) => Err("Service unavailable"))
         == Run(Err("Service unavailable"), [delay, delay * 2], 3)
  {
    var r := Retry<string, string>(3, delay, 2, (n: nat) => Err("Service unavailable"));
    assert Pow(2, 1) == 2;
    assert r.sleeps == [delay, delay * 2];
  }
}

=== FILE: unique.dfy ===
/** `unique` (pykit/collections.py): order-preserving de-duplication, computed
    as the keys of `dict.fromkeys(items)`. */
module Dedup {

  /** No element occurs twice. */
  ghost predicate Distinct<T>(xs: seq<T>) {
    forall i, j :: 0 <= i < j < |xs| ==> xs[i] != xs[j]
  }

  /** Number of times `x` occurs in `s`. */
  ghost function Count<T>(s: seq<T>, x: T): nat {
    if |s| == 0 then 0 else (if s[0] == x then 1 else 0) + Count(s[1..], x)
  }

  lemma {:induction false} CountDistinct<T>(s: seq<T>, x: T)
    requires Distinct(s)
    ensures Count(s, x) == if x in s then 1 else 0
  {
    if |s| > 0 {
      assert Distinct(s[1..]) by {
        forall i, j | 0 <= i < j < |s[1..]|
          ensures s[1..][i] != s[1..][j]
        {
          assert s[i + 1] != s[j + 1];
        }
      }
      CountDistinct(s[1..], x);
      if s[0] == x {
        assert x !in s[1..] by {
          forall j | 0 <= j < |s[1..]|
            ensures s[1..][j] != x
          {
            assert s[0] != s[j + 1];
          }
        }
      }
      assert x in s <==> s[0] == x || x in s[1..];
    }
  }

  lemma {:induction false} CountAppend<T>(a: seq<T>, b: seq<T>, x: T)
    ensures Count(a + b, x) == Count(a, x) + Count(b, x)
  {
    if |a| > 0 {
      assert (a + b)[0] == a[0];
      assert (a + b)[1..] == a[1..] + b;
      CountAppend(a[1..], b, x);
    } else {
      assert a + b == b;
    }
  }

  /** Position of the first occurrence of `x` in `xs`. */
  function FirstIndex<T(==)>(xs: seq<T>, x: T): (i: nat)
    requires x in xs
    ensures i < |xs| && xs[i] == x && x !in xs[..i]
  {
    if xs[0] == x then 0 else 1 + FirstIndex(xs[1..], x)
  }

  /** Appending an element leaves the first occurrences of earlier elements where they were. */
  lemma {:induction false} FirstIndexSnoc<T>(xs: seq<T>, x: T, y: T)
    requires y in xs
    ensures FirstIndex(xs + [x], y) == FirstIndex(xs, y)
  {
    if xs[0] != y {
      assert (xs + [x])[1..] == xs[1..] + [x];
      FirstIndexSnoc(xs[1..], x, y);
    }
  }

  /** Items inserted one after another as keys of a dictionary: an item
      already present keeps its slot, a new item takes the next one. The
      result lists each element once, and exactly the elements of the
      input. */
  function Unique<T(==)>(xs: seq<T>): (r: seq<T>)
    ensures Distinct(r)
    ensures forall i :: 0 <= i < |r| ==> r[i] in xs
    ensures forall i :: 0 <= i < |xs| ==> xs[i] in r
  {
    if |xs| == 0 then []
    else
      var pre := xs[..|xs| - 1];
      var x := xs[|xs| - 1];
      assert xs == pre + [x];
      var u := Unique(pre);
      if x in u then u else u + [x]
  }

  /** The result lists the elements in the order of their first occurrences
      in the input. */
  lemma {:induction false} UniqueOrder<T>(xs: seq<T>)
    ensures forall i, j :: 0 <= i < j < |Unique(xs)| ==> FirstIndex(xs, Unique(xs)[i]) < FirstIndex(xs, Unique(xs)[j])
  {
    if |xs| > 0 {
      var pre := xs[..|xs| - 1];
      var x := xs[|xs| - 1];
      assert xs == pre + [x];
      var u := Unique(pre);
      UniqueOrder(pre);
      assert forall y :: y in u ==> FirstIndex(xs, y) == FirstIndex(pre, y) by {
        forall y | y in u {
          FirstIndexSnoc(pre, x, y);
        }
      }
      var r := Unique(xs);
      if x !in u {
        assert r == u + [x];
        forall i | 0 <= i < |u|
          ensures FirstIndex(xs, u[i]) < FirstIndex(xs, x)
        {
          assert FirstIndex(xs, u[i]) == FirstIndex(pre, u[i]) < |pre|;
          assert x !in pre;
          assert FirstIndex(xs, x) == |pre|;
        }
      }
    }
  }

  /** A list whose elements are already distinct comes back unchanged. */
  lemma {:induction false} UniqueOfDistinct<T>(xs: seq<T>)
    requires Distinct(xs)
    ensures Unique(xs) == xs
  {
    if |xs| > 0 {
      var pre := xs[..|xs| - 1];
      var x := xs[|xs| - 1];
      assert Distinct(pre) by {
        forall i, j | 0 <= i < j < |pre|
          ensures pre[i] != pre[j]
        {
          assert pre[i] == xs[i] && pre[j] == xs[j];
        }
      }
      UniqueOfDistinct(pre);
      assert x !in pre by {
        forall i | 0 <= i < |pre|
          ensures pre[i] != x
        {
          assert pre[i] == xs[i];
        }
      }
      assert xs == pre + [x];
    }
  }

  /** De-duplicating twice is de-duplicating once. */
  lemma UniqueIdempotent<T>(xs: seq<T>)
    ensures Unique(Unique(xs)) == Unique(xs)
  {
    UniqueOfDistinct(Unique(xs));
  }

  /** Every element of `a` occurs in `xs`, and `a` lists them in the order
      of their first occurrences in `xs`. */
  ghost predicate InFirstOccurrenceOrder<T>(xs: seq<T>, a: seq<T>) {
    && (forall i :: 0 <= i < |a| ==> a[i] in xs)
    && (forall i, j :: 0 <= i < j < |a| ==> FirstIndex(xs, a[i]) < FirstIndex(xs, a[j]))
  }

  lemma OrderTail<T>(xs: seq<T>, a: seq<T>)
    requires |a| > 0 && InFirstOccurrenceOrder(xs, a)
    ensures InFirstOccurrenceOrder(xs, a[1..])
  {
    var t := a[1..];
    forall i, j | 0 <= i < j < |t|
      ensures FirstIndex(xs, t[i]) < FirstIndex(xs, t[j])
    {
      assert t[i] == a[i + 1] && t[j] == a[j + 1];
    }
  }

  /** Two lists in first-occurrence order that hold the same elements start
      with the same element. */
  lemma SameHead<T>(xs: seq<T>, a: seq<T>, b: seq<T>)
    requires |a| > 0 && |b| > 0
    requires a[0] in b && b[0] in a
    requires InFirstOccurrenceOrder(xs, a) && InFirstOccurrenceOrder(xs, b)
    ensures a[0] == b[0]
  {
  }

  /** Two lists in first-occurrence order, each holding the same elements
      once, are the same list. */
  lemma {:induction false} FirstOccurrenceOrderIsUnique<T>(xs: seq<T>, a: seq<T>, b: seq<T>)
    requires Distinct(a) && Distinct(b)
    requires forall x :: x in a <==> x in b
    requires InFirstOccurrenceOrder(xs, a) && InFirstOccurrenceOrder(xs, b)
    ensures a == b
    decreases |a|
  {
    assert |b| > 0 ==> b[0] in a;
    if |a| > 0 {
      assert a[0] in b;
      assert b[0] in a;
      SameHead(xs, a, b);
      var a', b' := a[1..], b[1..];
      forall x
        ensures x in a' <==> x in b'
      {
        if x in a' {
          var k :| 0 <= k < |a'| && a'[k] == x;
          assert a[k + 1] == x;
          assert x in b;
        }
        if x in b' {
          var k :| 0 <= k < |b'| && b'[k] == x;
          assert b[k + 1] == x;
          assert x in a;
        }
      }
      OrderTail(xs, a);
      OrderTail(xs, b);
      FirstOccurrenceOrderIsUnique(xs, a', b');
      assert a == [a[0]] + a';
      assert b == [b[0]] + b';
    }
  }

  /** The properties in the contract of `Unique` determine its result: any
      list that has them is `Unique(xs)`. */
  lemma UniqueCharacterized<T>(xs: seq<T>, r: seq<T>)
    requires Distinct(r)
    requires forall x :: x in r <==> x in xs
    requires forall i, j :: 0 <= i < j < |r| ==> FirstIndex(xs, r[i]) < FirstIndex(xs, r[j])
    ensures r == Unique(xs)
  {
    var u := Unique(xs);
    UniqueOrder(xs);
    forall x
      ensures x in r <==> x in u
    {
      if x in u {
        var k :| 0 <= k < |u| && u[k] == x;
      }
      if x in xs {
        var k :| 0 <= k < |xs| && xs[k] == x;
      }
    }
    FirstOccurrenceOrderIsUnique(xs, r, u);
  }

  /** `unique(['a', 'b', 'a']) == ['a', 'b']` and `unique([3, 1, 2]) == [3, 1, 2]`. */
  lemma UniqueExamples()
    ensures Unique(["a", "b", "a"]) == ["a", "b"]
    ensures Unique([3, 1, 2]) == [3, 1, 2]
  {
    var xs := ["a", "b", "a"];
    assert xs[..2] == ["a", "b"];
    UniqueOfDistinct(["a", "b"]);
    UniqueOfDistinct([3, 1, 2]);
  }
}

=== FILE: wrappers.dfy ===
/** The failure-carrying datatype shared by the collection and decorator models:
    a Python call either returns a value or raises an exception. */
module Wrappers {

  /** The outcome of a Python call: `Ok` for a return, `Err` for a raised exception. */
  datatype Result<+R, +E> = Ok(value: R) | Err(error: E)
}
